=== FILE: README.md ===
# Thermostat-API heater controller, modelled in Dafny

Thermostat-API decides every 15 seconds whether a space heater should run.
It reads the room temperature and CO2 level from a local metrics exporter,
pings the owner's PC and asks a small server on it whether it is locked,
and reconciles the smart plug that powers the heater with that decision.
An HTTP API shows and changes the settings.

This project models the decision and reconciliation logic and the small
parsers and classifiers around it as pure Dafny functions:

- `Text`: the two pieces of Rust string handling the parsers rely on,
  `str::split` on one character and `str::lines`.
- `Metrics`: the exposition parser (`get_metrics`), the `as i32`
  conversion, and `get_temp_and_co2`.
- `Pc`: `is_on` (ping outcome to on/off/error) and `is_locked` (lock
  server answer to a `TriState`).
- `Heater`: reading `switch:0` / `output` from the plug status, and the
  `Switch.Set` URL.
- `HeatMan`: the policy (`should_be_on`), one tick (`check_heater`), and
  the availability flag the loop keeps.
- `Server`: the earlier `main.rs` revision: the default configuration,
  the GET and PATCH handlers, and its duplicate of the metrics parser.

Every network call is an input instead of a call. `HttpText` stands for
a request followed by reading the body. `PingOutcome` is a ping's result.
`StatusReply` is the plug status decoded as a JSON object. A boolean says
whether a switch request completed. A tick returns its result together
with the list of calls it issued (`Call`). So "no calls", "at most one
switch" and the order of calls are statements about that list.

Float parsing (`str::parse::<f32>`) is a parameter of type
`string -> Option<real>`, and temperatures are `real`. Where the code
`unwrap`s (a missing metric, a plug status without the output field, and in
`main.rs` also an unparseable reading), it panics. Each such case is a
precondition that holds exactly on the paths that reach the `unwrap`
(`Metrics.TempAndCo2Defined`, `Heater.IsOnDefined`, `HeatMan.NoPanic`,
`Server.SendDefined`).

Three behaviours of the code that are easy to miss:
- A missing `temperature` or `co2` entry panics. It is not reported as an
  error.
- A plug status without a boolean `switch:0.output` panics. It is not
  reported as a malformed response.
- Under `force`, `should_be_on` returns before fetching metrics or probing
  the PC, so a forced tick only talks to the plug.

A panic ends the spawned task that runs the loop. After a missing metric or
a malformed plug status, no further tick runs and the availability flag keeps
its last value for good. The model states ticks only under `HeatMan.NoPanic`,
so it says nothing about the loop after such a panic.

The `Config` and `State` types used by `heatman.rs` are defined in a later
`main.rs` revision, which is not part of this model. `HeatMan.Config` and
`HeatMan.State` are rebuilt from how `heatman.rs` uses them: the CO2 target
is optional there.

## Model

| member | source | states |
|---|---|---|
| Text.Split | src/metrics.rs:20 | `split(' ')` gives at least one piece, no piece contains a space, and joining the pieces with spaces gives the line back, so leading, trailing and doubled spaces produce empty pieces |
| Text.SplitTwoPieces | src/metrics.rs:20-21 | a line splits into exactly `[left, right]` iff it is `left`, one space, `right`, and neither side contains a space |
| Text.LinesHaveNoNewline | src/metrics.rs:18 | no line produced by `lines()` contains a newline |
| Text.LinesOfUnlines | src/metrics.rs:18 | `lines()` gives back every newline-terminated line, and an unterminated last line is kept as it is; a final newline does not add an empty line |
| Text.CrLfEnding | src/metrics.rs:18 | a `"\r\n"` ending is removed completely, so the line keeps no carriage return |
| Metrics.EntryShape | src/metrics.rs:19-22 | a line adds the entry `(key, value)` iff it does not start with `#` and is `key`, one space, `value`, with no other space |
| Metrics.EntryPlainLine | src/metrics.rs:19-22 | the line `"co2 512"` gives the entry `("co2", "512")` |
| Metrics.EntryTrailingSpace | src/metrics.rs:19-22 | `"a "` splits into `a` and an empty piece, so it gives key `a` with an empty value |
| Metrics.EntryLeadingSpace | src/metrics.rs:19-22 | `" #x"` is not a comment, because only a first-character `#` counts, and gives `("", "#x")` |
| Metrics.EntryCommentDropped | src/metrics.rs:19 | `"#a b"` is a comment and adds nothing, although it has two pieces |
| Metrics.EntryThreePiecesDropped | src/metrics.rs:20-21 | `"a b "` has three pieces, so it adds nothing |
| Metrics.EntryOnePieceDropped | src/metrics.rs:20-21 | a line without a space, such as `"temperature"`, is one piece and adds nothing |
| Metrics.CollectKeys | src/metrics.rs:17-23 | a key is in the parsed map iff some non-comment two-piece line has it as its first piece |
| Metrics.CollectLastWins | src/metrics.rs:22-23 | for a repeated key, the map holds the value from the last line with that key |
| Metrics.GetMetrics | src/metrics.rs:13-26 | a failed request or body read is an error; otherwise the result is the parsed body: its keys are exactly the keys of the contributing lines, and each key holds the value from the last line that carries it |
| Metrics.AsI32 | src/metrics.rs:7 | `as i32` rounds toward zero, stays within `i32`, saturates at both bounds, and is within 1 of the value when the value is in range |
| Metrics.GetTempAndCo2 | src/metrics.rs:4-9 | an unreachable exporter is a transport error; an unparseable temperature is the error reported, even if CO2 is also bad; an unparseable CO2 after a good temperature is a parse error carrying the CO2 text; on success the temperature is the parsed value and CO2 is the parsed value converted with `as i32` |
| Pc.IsOn | src/pc.rs:10-23 | a reply means on and a timeout (I/O error) means off; only another ping error is an error |
| Pc.FromBool | src/pc.rs:40 | a boolean becomes a definite `TriState` that gives the same boolean back |
| Pc.IsLocked | src/pc.rs:27-41 | never fails: `Unknown` iff the request or body read failed, locked iff the body is exactly `"1"`, and unlocked for every other body |
| Pc.IsLockedExamples | src/pc.rs:38-40 | `"1"` means locked; `"0"`, `""` and `"1\n"` mean unlocked; both kinds of failure mean unknown |
| Pc.WinLockEndpointValue | src/pc.rs:6-7 | the lock server URL is `http://192.168.178.89:26969/` |
| Heater.IsOn | src/heater.rs:8-19 | a failed request or an undecodable body is an error; otherwise the answer is the boolean at `switch:0` / `output` |
| Heater.IsOnReadsOutput | src/heater.rs:14-18 | a status whose `switch:0.output` is `on` reads back as `on`, whatever its other fields are |
| Heater.IsOnIgnoresOtherFields | src/heater.rs:14-17 | changing a top-level field other than `switch:0` does not change the answer |
| Heater.SwitchUrl | src/heater.rs:23 | the switch URL is the `Switch.Set` endpoint, then `?id=0&on=`, then `true` or `false` |
| Heater.SwitchUrlRoundTrip | src/heater.rs:23 | the state can be read back from the switch URL, so switching on and switching off request different URLs |
| Heater.StatusUrlValue | src/heater.rs:3-4 | the status query goes to `http://192.168.178.86/rpc/Shelly.GetStatus` |
| Heater.SwitchOnUrlValue | src/heater.rs:23 | switching on requests `http://192.168.178.86/rpc/Switch.Set?id=0&on=true` |
| Heater.SwitchOffUrlValue | src/heater.rs:23 | switching off requests `http://192.168.178.86/rpc/Switch.Set?id=0&on=false` |
| Heater.Switch | src/heater.rs:22-25 | the requested URL is a `Switch.Set` URL whose flag reads back as the requested state; the result is Ok iff the request completed, and the plug state is not read back |
| HeatMan.Decide | src/heatman.rs:63-66 | on iff colder than the target, CO2 at or above the target when one is set, PC on, and lock status not locked, so an unknown lock status counts as unlocked |
| HeatMan.DecideScenarios | src/heatman.rs:63-66 | worked examples: 17.0 below 18.0 with CO2 520 over 500 is on, and locked turns it off; CO2 499 or a temperature equal to the target is off; without a CO2 target, an unknown lock still allows on |
| HeatMan.ShouldBeOn | src/heatman.rs:51-69 | under `force`: on, with no calls at all; otherwise the calls are a prefix of metrics, ping, lock; an error happens only without force, after one or two calls |
| HeatMan.ShouldBeOnProbes | src/heatman.rs:56-68 | without force: a failed readings fetch ends after the metrics call, and a ping error ends after the ping; the lock probe never fails; the decision is the policy applied to the readings, the ping and the lock status |
| HeatMan.Reconcile | src/heatman.rs:36-47 | a failed decision ends the step with no further call; after a successful decision the plug status is queried next; the calls keep the order metrics, ping, lock, plug status, switch; the step succeeds iff the decision and the plug query succeed and either the plug already agrees or the switch request completes; an error is the decision's own error or a transport error |
| HeatMan.ReconcileSwitches | src/heatman.rs:36-45 | the plug is switched to `on` iff the decision is `on` and the plug reports the opposite; a failed decision or plug query is an error with no switch call |
| HeatMan.CheckHeater | src/heatman.rs:30-48 | with the master switch off: Ok and no calls at all; otherwise the calls start with the decision's calls and keep the order metrics, ping, lock, plug status, switch; a failed decision issues nothing more, and a successful one queries the plug next; the tick succeeds iff the decision and the plug query succeed and either the plug already agrees or the switch request completes |
| HeatMan.OrderedSwitchIsLast | src/heatman.rs:42-45 | in any list of calls that keeps the tick's call order, a switch can only be the last call |
| HeatMan.AtMostOneSwitch | src/heatman.rs:42-45 | a tick switches the heater at most once, as its last call |
| HeatMan.SwitchIffMismatch | src/heatman.rs:36-45 | the heater is switched to `on` iff the master switch is on, the decision is `on` and the plug reports the opposite, so a plug already in the decided state is not switched |
| HeatMan.FailureAbortsBeforeSwitch | src/heatman.rs:36-39 | a failed decision (readings or ping) or plug query ends the tick in an error with no switch call |
| HeatMan.ForcedTickAsksOnlyThePlug | src/heatman.rs:52-54 | under `force`, the tick's first call is the plug status, and it switches the heater on exactly when the plug reports it off |
| HeatMan.UnknownLockActsAsUnlocked | src/heatman.rs:59-66 | two lock answers that do not say locked, such as an unreachable lock server and `"0"`, produce the same tick: the same result and the same calls |
| HeatMan.LoopBody | src/heatman.rs:16-24 | the flag becomes whether the tick succeeded, the config is unchanged, a change is announced iff the flag changes, and a master-switch-off tick makes the flag true |
| HeatMan.LoopBodyTracks | src/heatman.rs:17-24 | one loop iteration is one step of the availability tracker |
| HeatMan.TrackAnnouncesTransitions | src/heatman.rs:13-25 | over many ticks the announcements alternate: the first differs from the starting flag, each differs from the one before it, and the flag ends at the last announced value |
| HeatMan.TrackSnoc | src/heatman.rs:16-24 | one more tick after a run makes the flag that tick's result and appends an announcement exactly when it differs from the flag after the run, so every change of reachability is announced in order and nothing else is |
| HeatMan.TrackEndsAtLastTick | src/heatman.rs:13-25 | after a run of ticks the flag is whether the last tick succeeded |
| HeatMan.TrackStable | src/heatman.rs:18-24 | if every tick has the same reachability, the flag does not flap: at most one announcement, and only if the flag started out different |
| Server.InitialConfig | src/main.rs:99-108 | without a configuration file the server starts with master switch on, force off, target 28.0 and CO2 target 500; otherwise it starts with the stored configuration |
| Server.EntryV1Agrees | src/main.rs:81-84 | the duplicate parser's `starts_with("#")` line rule adds the same entry as `metrics.rs` for every line |
| Server.CollectV1Agrees | src/main.rs:79-85 | for every sequence of lines, the duplicate parser builds the same map as `metrics.rs` |
| Server.ParsersAgree | src/main.rs:75-88 | for every body, the two revisions of `get_metrics` parse to the same map |
| Server.SendConfigAndState | src/main.rs:52-73 | only an unreachable exporter or plug, or an undecodable status, is an error; the response has the given configuration, the parsed readings and the plug state |
| Server.GetConfigAndState | src/main.rs:34-39 | the configuration is included iff `include_config` is present and true, so an absent parameter leaves it out |
| Server.PatchConfig | src/main.rs:41-50 | a failed write is an error and keeps the old configuration; after a successful write the new configuration replaces the old one, and any successful response includes it |
| Server.PatchThenGet | src/main.rs:41-50 | after a persisted PATCH, `GET /?include_config=true` reports the new configuration, even if the PATCH response was an error |

## Left out

- Server start-up, routing, JSON (de)serialisation and reading or writing the configuration file `heater_config.json` (src/main.rs:10-32, 45): these are I/O plumbing. A write appears only as the boolean `persisted`, and a decoded file appears as an `Option<Config>`.
- The tokio task, the 15-second interval and the `RwLock` (src/heatman.rs:8-16, 19): these are scheduling and concurrency. Only one loop iteration is modelled, as a state change, plus the flag over a sequence of tick results (`HeatMan.Track`).
- The actual HTTP requests (including the exporter URL `http://localhost:8000`), ping sockets and JSON decoding: each is an input describing its outcome.
- A panic inside the loop task (src/heatman.rs:9-25): it stops the loop for good. The model has no state after a panic; every tick is stated under `HeatMan.NoPanic`.
- Logging (`info!`, `println!`) and logger set-up. An availability change is shown as an announcement, not a log line.
- `str::parse::<f32>` is a parameter, and temperatures are exact reals. f32 rounding and NaN are not modelled.
- Metrics.AsI32: works on exact reals, so it does not model the f32 value the source converts or the NaN-to-zero case.
- Text.Lines: follows current Rust, where only `"\n"` and `"\r\n"` end a line. Older Rust also stripped a bare `'\r'` at the end of the last line, and that is not modelled.
- The PATCH-triggered immediate reconciliation and the availability field in GET responses are not in the `main.rs` revision modelled here.
- `Server.GetConfigAndState` and `Server.PatchConfig` drop the mutex. Each handler is one atomic state transition.

=== FILE: heater.dfy ===
/** The actuator client: the smart plug that powers the heater, queried and
    switched over its HTTP RPC interface. */
module Heater {
  import opened Outcomes

  /** The plug's RPC endpoint and the two methods the controller calls. */
  const PlugEndpoint := "http://192.168.178.86/rpc/"
  const StatusEndpoint := PlugEndpoint + "Shelly.GetStatus"
  const SwitchSetEndpoint := PlugEndpoint + "Switch.Set"

  /** The query that follows `Switch.Set`, up to the on/off flag. */
  const SwitchQuery := "?id=0&on="

  /** A JSON value, as `serde_json::Value` holds it. */
  datatype Json =
    | Null
    | Bool(b: bool)
    | Number(n: real)
    | Str(s: string)
    | Array(items: seq<Json>)
    | Object(fields: map<string, Json>)

  /** The outcome of fetching the plug status and decoding it as a JSON
      object: the request fails, the body is not a JSON object, or the
      object's fields. */
  datatype StatusReply = Unreachable | Undecodable | Status(fields: map<string, Json>)

  const SwitchKey := "switch:0"
  const OutputKey := "output"

  /** The status carries a boolean at `switch:0` / `output`. */
  predicate HasOutput(fields: map<string, Json>) {
    && SwitchKey in fields
    && fields[SwitchKey].Object?
    && OutputKey in fields[SwitchKey].fields
    && fields[SwitchKey].fields[OutputKey].Bool?
  }

  /** The cases in which `heater::is_on` does not panic: every step from the
      object down to the boolean is `unwrap`ped, so a decoded status must
      have the field. */
  predicate IsOnDefined(reply: StatusReply) {
    reply.Status? ==> HasOutput(reply.fields)
  }

  /** `heater::is_on`: whether the plug reports its output switched on. A
      failed request or an undecodable body is an error. */
  function IsOn(reply: StatusReply): (r: Result<bool, Failure>)
    requires IsOnDefined(reply)
    ensures r.Err? <==> !reply.Status?
    ensures r.Err? ==> r.error == Transport
    ensures r.Ok? ==> reply.fields[SwitchKey].fields[OutputKey] == Bool(r.value)
  {
    match reply
    case Status(fields) => Ok(fields[SwitchKey].fields[OutputKey].b)
    case _ => Err(Transport)
  }

  /** A status object whose `switch:0` / `output` is `on`, built over any
      other fields. */
  function WithOutput(fields: map<string, Json>, switchFields: map<string, Json>, on: bool): map<string, Json>
  {
    fields[SwitchKey := Object(switchFields[OutputKey := Bool(on)])]
  }

  /** Reading the state back from a status that reports `on` gives `on`,
      whatever else the status holds. */
  lemma IsOnReadsOutput(fields: map<string, Json>, switchFields: map<string, Json>, on: bool)
    ensures IsOnDefined(Status(WithOutput(fields, switchFields, on)))
    ensures IsOn(Status(WithOutput(fields, switchFields, on))) == Ok(on)
  {
  }

  /** Fields other than `switch:0` do not affect the answer. */
  lemma IsOnIgnoresOtherFields(fields: map<string, Json>, key: string, v: Json)
    requires key != SwitchKey
    requires IsOnDefined(Status(fields))
    ensures IsOnDefined(Status(fields[key := v]))
    ensures IsOn(Status(fields[key := v])) == IsOn(Status(fields))
  {
  }

  /** Rust's `Display` for `bool`. */
  function BoolText(b: bool): string {
    if b then "true" else "false"
  }

  /** The URL `heater::switch(on)` requests. */
  function SwitchUrl(on: bool): (url: string)
    ensures SwitchSetEndpoint + SwitchQuery <= url
    ensures url[|SwitchSetEndpoint + SwitchQuery|..] == BoolText(on)
  {
    var prefix := SwitchSetEndpoint + SwitchQuery;
    assert (prefix + BoolText(on))[..|prefix|] == prefix;
    prefix + BoolText(on)
  }

  /** The on/off flag a `Switch.Set` URL carries, if it is one. */
  function SwitchArgument(url: string): Option<bool>
  {
    var prefix := SwitchSetEndpoint + SwitchQuery;
    if prefix <= url then
      var flag := url[|prefix|..];
      if flag == "true" then Some(true)
      else if flag == "false" then Some(false)
      else None
    else None
  }

  /** The switch URL carries exactly the requested state, so the two URLs
      differ. */
  lemma {:induction false} SwitchUrlRoundTrip(on: bool)
    ensures SwitchArgument(SwitchUrl(on)) == Some(on)
    ensures SwitchUrl(on) != SwitchUrl(!on)
  {
    assert "true" != "false" by { assert |"true"| != |"false"|; }
    assert BoolText(on) != BoolText(!on);
  }

  /** The status query goes to the plug's `Shelly.GetStatus` method. */
  lemma StatusUrlValue()
    ensures StatusEndpoint == "http://192.168.178.86/rpc/Shelly.GetStatus"
  {
  }

  /** Switching on requests the plug's `Switch.Set` method with `on=true`. */
  lemma SwitchOnUrlValue()
    ensures SwitchUrl(true) == "http://192.168.178.86/rpc/Switch.Set?id=0&on=true"
  {
  }

  /** Switching off requests `Switch.Set` with `on=false`. */
  lemma SwitchOffUrlValue()
    ensures SwitchUrl(false) == "http://192.168.178.86/rpc/Switch.Set?id=0&on=false"
  {
  }

  /** What `heater::switch` does: the URL it requests and its result. */
  datatype SwitchRequest = SwitchRequest(url: string, result: Result<(), Failure>)

  /** `heater::switch`: fire-and-forget. The requested URL carries the
      wanted state; the result depends only on whether the request
      completed, never on the state the plug ends up in. */
  function Switch(on: bool, delivered: bool): (r: SwitchRequest)
    ensures SwitchArgument(r.url) == Some(on)
    ensures SwitchSetEndpoint + SwitchQuery <= r.url
    ensures r.result.Ok? <==> delivered
    ensures r.result.Err? ==> r.result.error == Transport
  {
    SwitchUrlRoundTrip(on);
    SwitchRequest(SwitchUrl(on), if delivered then Ok(()) else Err(Transport))
  }
}

=== FILE: heatman.dfy ===
/** The heater manager: the policy that decides whether the heater should be
    on, one reconciliation tick against the plug, and the loop that tracks
    whether the plug is available.

    A tick is a pure function of the configuration and of what the outside
    world answers (`Env`). Besides its result it returns the trace of the
    network calls it issued, so that "no calls", "at most one switch" and
    the order of the calls are statements about that trace. */
module HeatMan {
  import opened Outcomes
  import Metrics
  import Pc
  import Heater

  /** The user's settings: `masterSwitch` enables the manager, `force` keeps
      the heater on regardless of the readings, and the heater may only run
      below `targetTemp` and, when `co2Target` is set, at or above that CO2
      level (a sign that the room is occupied). */
  datatype Config = Config(masterSwitch: bool, force: bool, targetTemp: real, co2Target: Option<int>)

  /** The state shared with the HTTP API: the settings, and whether the
      last tick reached everything it needed. */
  datatype State = State(config: Config, available: bool)

  /** What the outside world answers during one tick: the metrics body and
      the float parser applied to it, the ping, the lock server, the plug
      status, and whether a switch request would complete. */
  datatype Env = Env(
    metrics: HttpText,
    parse: Metrics.F32Parse,
    ping: Pc.PingOutcome,
    lock: HttpText,
    status: Heater.StatusReply,
    switchDelivered: bool)

  /** A network call a tick issues. */
  datatype Call = FetchMetrics | PingPc | FetchLockStatus | FetchHeaterStatus | SetHeater(on: bool)

  /** Position of each kind of call in the fixed order of a tick. */
  function Rank(c: Call): nat {
    match c
    case FetchMetrics => 0
    case PingPc => 1
    case FetchLockStatus => 2
    case FetchHeaterStatus => 3
    case SetHeater(_) => 4
  }

  /** Calls appear in the order metrics, ping, lock, heater status, switch,
      each at most once. */
  predicate InCallOrder(calls: seq<Call>) {
    forall i, j :: 0 <= i < j < |calls| ==> Rank(calls[i]) < Rank(calls[j])
  }

  /** The calls of the decision phase followed by those of the plug phase
      are in order. */
  lemma TickCallsInOrder(probe: seq<Call>, plug: seq<Call>, on: bool)
    requires probe <= ProbeOrder
    requires plug <= [FetchHeaterStatus, SetHeater(on)]
    ensures InCallOrder(probe + plug)
  {
    var calls := probe + plug;
    assert forall i :: 0 <= i < |probe| ==> calls[i] == ProbeOrder[i];
    assert forall i :: 0 <= i < |probe| ==> Rank(calls[i]) == i;
    assert forall i :: |probe| <= i < |calls| ==> Rank(calls[i]) == 3 + i - |probe|;
  }

  /** The policy once `force` is off: cold enough, CO2 high enough when a
      CO2 target is set, PC on, and PC not known to be locked. A lock status
      that could not be read counts as unlocked. */
  function Decide(cfg: Config, reading: Metrics.Reading, pcOn: bool, locked: Pc.TriState): (on: bool)
    ensures on <==>
      && reading.temperature < cfg.targetTemp
      && (cfg.co2Target == None || reading.co2 >= cfg.co2Target.value)
      && pcOn
      && locked != Pc.Yes
  {
    && reading.temperature < cfg.targetTemp
    && (cfg.co2Target.None? || reading.co2 >= cfg.co2Target.value)
    && pcOn
    && !locked.ToBool().UnwrapOr(false)
  }

  /** The worked examples of the policy. */
  lemma DecideScenarios()
    ensures Decide(Config(true, false, 18.0, Some(500)), Metrics.Reading(17.0, 520), true, Pc.No)
    ensures !Decide(Config(true, false, 18.0, Some(500)), Metrics.Reading(17.0, 520), true, Pc.Yes)
    ensures Decide(Config(true, false, 18.0, None), Metrics.Reading(10.0, 0), true, Pc.Unknown)
    ensures !Decide(Config(true, false, 18.0, Some(500)), Metrics.Reading(17.0, 499), true, Pc.No)
    ensures !Decide(Config(true, false, 18.0, Some(500)), Metrics.Reading(18.0, 520), true, Pc.No)
  {
  }

  /** The decision together with the calls made to reach it. */
  datatype Probe = Probe(decision: Result<bool, Failure>, calls: seq<Call>)

  /** The cases in which `should_be_on` does not panic. */
  predicate ProbeDefined(cfg: Config, env: Env) {
    !cfg.force ==> Metrics.TempAndCo2Defined(env.metrics, env.parse)
  }

  /** `should_be_on`: under `force`, on, without asking anyone. Otherwise
      the readings, then the ping, then the lock status, stopping at the first
      error; the lock probe never fails. */
  function ShouldBeOn(cfg: Config, env: Env): (p: Probe)
    requires ProbeDefined(cfg, env)
    ensures cfg.force ==> p == Probe(Ok(true), [])
    ensures p.calls <= ProbeOrder
    ensures p.decision.Err? ==> !cfg.force && 1 <= |p.calls| <= 2
    ensures p.decision.Ok? && !cfg.force ==> |p.calls| == 3
  {
    if cfg.force then
      Probe(Ok(true), [])
    else
      match Metrics.GetTempAndCo2(env.metrics, env.parse)
      case Err(e) => Probe(Err(e), [FetchMetrics])
      case Ok(reading) =>
        match Pc.IsOn(env.ping)
        case Err(e) => Probe(Err(e), [FetchMetrics, PingPc])
        case Ok(pcOn) =>
          var locked := Pc.IsLocked(env.lock);
          Probe(Ok(Decide(cfg, reading, pcOn, locked)), [FetchMetrics, PingPc, FetchLockStatus])
  }

  /** Without `force`: the readings fetch fails first, then the ping; the
      lock probe never fails; and the decision is the policy applied to what
      was read. */
  lemma ShouldBeOnProbes(cfg: Config, env: Env)
    requires ProbeDefined(cfg, env)
    requires !cfg.force
    ensures var p := ShouldBeOn(cfg, env);
      var reading := Metrics.GetTempAndCo2(env.metrics, env.parse);
      var pcOn := Pc.IsOn(env.ping);
      && (p.decision.Ok? <==> reading.Ok? && pcOn.Ok?)
      && (reading.Err? ==> p == Probe(Err(reading.error), [FetchMetrics]))
      && (reading.Ok? && pcOn.Err? ==> p == Probe(Err(pcOn.error), [FetchMetrics, PingPc]))
      && (p.decision.Ok? ==> p.calls == [FetchMetrics, PingPc, FetchLockStatus])
      && (p.decision.Ok? ==> p.decision.value == Decide(cfg, reading.value, pcOn.value, Pc.IsLocked(env.lock)))
  {
  }

  /** The result of one tick and the calls it issued. */
  datatype Tick = Tick(outcome: Result<(), Failure>, calls: seq<Call>)

  /** The cases in which `check_heater` does not panic: the metrics carry
      the keys it looks up and, once a decision is reached, the plug status
      carries its output field. */
  predicate NoPanic(cfg: Config, env: Env) {
    cfg.masterSwitch ==>
      && ProbeDefined(cfg, env)
      && (ShouldBeOn(cfg, env).decision.Ok? ==> Heater.IsOnDefined(env.status))
  }

  /** The calls `should_be_on` can issue, in the order it issues them. */
  const ProbeOrder := [FetchMetrics, PingPc, FetchLockStatus]

  /** The second half of `check_heater`: given the decision, read the plug
      and switch it only when it disagrees. Any error ends the tick there. */
  function Reconcile(probe: Probe, status: Heater.StatusReply, delivered: bool): (t: Tick)
    requires probe.calls <= ProbeOrder
    requires probe.decision.Ok? ==> Heater.IsOnDefined(status)
    ensures InCallOrder(t.calls)
    ensures probe.calls <= t.calls
    ensures t.outcome.Ok? <==>
      && probe.decision.Ok?
      && Heater.IsOn(status).Ok?
      && (probe.decision.value == Heater.IsOn(status).value || delivered)
    ensures t.outcome.Err? && probe.decision.Err? ==> t.outcome.error == probe.decision.error
    ensures t.outcome.Err? && probe.decision.Ok? ==> t.outcome.error == Transport
    ensures probe.decision.Err? ==> t.calls == probe.calls
    ensures probe.decision.Ok? ==> |t.calls| > |probe.calls| && t.calls[|probe.calls|] == FetchHeaterStatus
  {
    if probe.decision.Err? then
      TickCallsInOrder(probe.calls, [], false);
      Tick(Err(probe.decision.error), probe.calls)
    else
      var shouldBeOn := probe.decision.value;
      var isOn := Heater.IsOn(status);
      if isOn.Err? then
        TickCallsInOrder(probe.calls, [FetchHeaterStatus], false);
        Tick(Err(isOn.error), probe.calls + [FetchHeaterStatus])
      else if shouldBeOn != isOn.value then
        TickCallsInOrder(probe.calls, [FetchHeaterStatus, SetHeater(shouldBeOn)], shouldBeOn);
        Tick(Heater.Switch(shouldBeOn, delivered).result, probe.calls + [FetchHeaterStatus, SetHeater(shouldBeOn)])
      else
        TickCallsInOrder(probe.calls, [FetchHeaterStatus], false);
        Tick(Ok(()), probe.calls + [FetchHeaterStatus])
  }

  /** The plug is switched to `on` exactly when the decision is `on` and the
      plug reports the opposite; an error in the decision or the plug query
      makes the tick an error and switches nothing. */
  lemma ReconcileSwitches(probe: Probe, status: Heater.StatusReply, delivered: bool, on: bool)
    requires probe.calls <= ProbeOrder
    requires probe.decision.Ok? ==> Heater.IsOnDefined(status)
    ensures SetHeater(on) in Reconcile(probe, status, delivered).calls <==>
      probe.decision == Ok(on) && Heater.IsOn(status) == Ok(!on)
    ensures probe.decision.Err? || Heater.IsOn(status).Err? ==>
      && Reconcile(probe, status, delivered).outcome.Err?
      && forall c :: c in Reconcile(probe, status, delivered).calls ==> !c.SetHeater?
  {
    assert forall c :: c in probe.calls ==> !c.SetHeater? by {
      forall c | c in probe.calls ensures !c.SetHeater? {
        var i :| 0 <= i < |probe.calls| && probe.calls[i] == c;
        assert c == ProbeOrder[i];
      }
    }
  }

  /** `check_heater`: with the master switch off, nothing at all; otherwise
      decide, then reconcile the plug with the decision. */
  function CheckHeater(cfg: Config, env: Env): (t: Tick)
    requires NoPanic(cfg, env)
    ensures !cfg.masterSwitch ==> t == Tick(Ok(()), [])
    ensures InCallOrder(t.calls)
    ensures cfg.masterSwitch ==> ShouldBeOn(cfg, env).calls <= t.calls
    ensures cfg.masterSwitch ==>
      (t.outcome.Ok? <==>
        && ShouldBeOn(cfg, env).decision.Ok?
        && Heater.IsOn(env.status).Ok?
        && (ShouldBeOn(cfg, env).decision.value == Heater.IsOn(env.status).value || env.switchDelivered))
    ensures cfg.masterSwitch && ShouldBeOn(cfg, env).decision.Err? ==> t.calls == ShouldBeOn(cfg, env).calls
    ensures cfg.masterSwitch && ShouldBeOn(cfg, env).decision.Ok? ==>
      |t.calls| > |ShouldBeOn(cfg, env).calls| && t.calls[|ShouldBeOn(cfg, env).calls|] == FetchHeaterStatus
  {
    if !cfg.masterSwitch then
      Tick(Ok(()), [])
    else
      Reconcile(ShouldBeOn(cfg, env), env.status, env.switchDelivered)
  }

  /** In an ordered trace a switch can only be the last call. */
  lemma OrderedSwitchIsLast(calls: seq<Call>)
    requires InCallOrder(calls)
    ensures forall i :: 0 <= i < |calls| - 1 ==> !calls[i].SetHeater?
  {
    forall i | 0 <= i < |calls| - 1 ensures !calls[i].SetHeater? {
      assert Rank(calls[i]) < Rank(calls[|calls| - 1]);
    }
  }

  /** A tick switches the heater at most once, as its very last call. */
  lemma AtMostOneSwitch(cfg: Config, env: Env)
    requires NoPanic(cfg, env)
    ensures var calls := CheckHeater(cfg, env).calls;
      forall i :: 0 <= i < |calls| - 1 ==> !calls[i].SetHeater?
  {
    OrderedSwitchIsLast(CheckHeater(cfg, env).calls);
  }

  /** The heater is switched to `on` exactly when the master switch is on,
      the decision is `on` and the plug reports the opposite. In particular a
      plug already in the decided state is left alone. */
  lemma SwitchIffMismatch(cfg: Config, env: Env, on: bool)
    requires NoPanic(cfg, env)
    ensures SetHeater(on) in CheckHeater(cfg, env).calls <==>
      && cfg.masterSwitch
      && ShouldBeOn(cfg, env).decision == Ok(on)
      && Heater.IsOn(env.status) == Ok(!on)
  {
    if cfg.masterSwitch {
      ReconcileSwitches(ShouldBeOn(cfg, env), env.status, env.switchDelivered, on);
    }
  }

  /** A failed readings fetch, ping or plug query ends the tick in an error
      before anything is switched. */
  lemma FailureAbortsBeforeSwitch(cfg: Config, env: Env)
    requires NoPanic(cfg, env)
    requires cfg.masterSwitch
    requires ShouldBeOn(cfg, env).decision.Err? || Heater.IsOn(env.status).Err?
    ensures CheckHeater(cfg, env).outcome.Err?
    ensures forall c :: c in CheckHeater(cfg, env).calls ==> !c.SetHeater?
  {
    ReconcileSwitches(ShouldBeOn(cfg, env), env.status, env.switchDelivered, true);
  }

  /** Under `force` the tick asks only the plug, and turns the heater on if
      the plug reports it off. */
  lemma ForcedTickAsksOnlyThePlug(cfg: Config, env: Env)
    requires NoPanic(cfg, env)
    requires cfg.masterSwitch && cfg.force
    ensures CheckHeater(cfg, env).calls[0] == FetchHeaterStatus
    ensures Heater.IsOn(env.status) == Ok(false) ==>
      CheckHeater(cfg, env).calls == [FetchHeaterStatus, SetHeater(true)]
    ensures Heater.IsOn(env.status) != Ok(false) ==>
      CheckHeater(cfg, env).calls == [FetchHeaterStatus]
  {
  }

  /** Any two lock answers that do not say "locked" (an unreadable lock
      server and an explicit "0", say) lead to the very same tick. */
  lemma UnknownLockActsAsUnlocked(cfg: Config, env: Env, a: HttpText, b: HttpText)
    requires NoPanic(cfg, env)
    requires Pc.IsLocked(a) != Pc.Yes && Pc.IsLocked(b) != Pc.Yes
    ensures NoPanic(cfg, env.(lock := a)) && NoPanic(cfg, env.(lock := b))
    ensures CheckHeater(cfg, env.(lock := a)) == CheckHeater(cfg, env.(lock := b))
  {
    var ea := env.(lock := a);
    var eb := env.(lock := b);
    if cfg.masterSwitch {
      assert ShouldBeOn(cfg, ea).decision.Ok? <==> ShouldBeOn(cfg, env).decision.Ok?;
      assert ShouldBeOn(cfg, eb).decision.Ok? <==> ShouldBeOn(cfg, env).decision.Ok?;
      assert ShouldBeOn(cfg, ea) == ShouldBeOn(cfg, eb);
    }
  }

  /** One step of the manager's loop: the availability flag becomes whether
      the tick succeeded, and a change is announced (and written) only when
      the flag actually changes. */
  datatype Step = Step(state: State, announced: Option<bool>)

  function LoopBody(s: State, env: Env): (st: Step)
    requires NoPanic(s.config, env)
    ensures st.state.config == s.config
    ensures st.state.available <==> CheckHeater(s.config, env).outcome.Ok?
    ensures st.announced.Some? <==> st.state.available != s.available
    ensures st.announced.Some? ==> st.announced.value == st.state.available
    ensures !s.config.masterSwitch ==> st.state.available
  {
    var available := CheckHeater(s.config, env).outcome.Ok?;
    if s.available != available then
      Step(s.(available := available), Some(available))
    else
      Step(s, None)
  }

  /** The availability flag over consecutive ticks, given whether each tick
      succeeded, with the changes announced along the way. */
  datatype Availability = Availability(available: bool, announced: seq<bool>)

  function Track(available: bool, ticksOk: seq<bool>): Availability
    decreases |ticksOk|
  {
    if |ticksOk| == 0 then
      Availability(available, [])
    else
      var rest := Track(ticksOk[0], ticksOk[1..]);
      Availability(rest.available, (if ticksOk[0] != available then [ticksOk[0]] else []) + rest.announced)
  }

  /** One loop iteration is one step of `Track`. */
  lemma LoopBodyTracks(s: State, env: Env)
    requires NoPanic(s.config, env)
    ensures var st := LoopBody(s, env);
      var a := Track(s.available, [CheckHeater(s.config, env).outcome.Ok?]);
      st.state.available == a.available && (if st.announced.Some? then [st.announced.value] else []) == a.announced
  {
    var ok := CheckHeater(s.config, env).outcome.Ok?;
    assert [ok][1..] == [];
  }

  /** Announcements alternate: the first differs from the starting flag,
      each differs from the one before it, and the flag ends at the last
      one announced. */
  lemma {:induction false} TrackAnnouncesTransitions(available: bool, ticksOk: seq<bool>)
    ensures var a := Track(available, ticksOk);
      && (|a.announced| > 0 ==> a.announced[0] != available)
      && (forall i :: 0 < i < |a.announced| ==> a.announced[i] != a.announced[i - 1])
      && a.available == (if |a.announced| == 0 then available else a.announced[|a.announced| - 1])
    decreases |ticksOk|
  {
    if |ticksOk| > 0 {
      TrackAnnouncesTransitions(ticksOk[0], ticksOk[1..]);
    }
  }

  /** One more tick is one more loop step: the flag becomes that tick's
      result, and it is announced exactly when it differs from the flag
      after the earlier ticks. So every change of reachability is
      announced, in order, and nothing else is. */
  lemma {:induction false} TrackSnoc(available: bool, ticksOk: seq<bool>, ok: bool)
    ensures var a := Track(available, ticksOk);
      Track(available, ticksOk + [ok]) ==
        Availability(ok, a.announced + (if ok != a.available then [ok] else []))
    decreases |ticksOk|
  {
    if |ticksOk| == 0 {
      assert ([] + [ok])[1..] == [];
    } else {
      assert (ticksOk + [ok])[0] == ticksOk[0];
      assert (ticksOk + [ok])[1..] == ticksOk[1..] + [ok];
      TrackSnoc(ticksOk[0], ticksOk[1..], ok);
    }
  }

  /** After a run the flag says whether the last tick succeeded. */
  lemma {:induction false} TrackEndsAtLastTick(available: bool, ticksOk: seq<bool>)
    requires |ticksOk| > 0
    ensures Track(available, ticksOk).available == ticksOk[|ticksOk| - 1]
    decreases |ticksOk|
  {
    if |ticksOk| > 1 {
      TrackEndsAtLastTick(ticksOk[0], ticksOk[1..]);
    }
  }

  /** With the same reachability on every tick the flag does not flap: at
      most one announcement, and only if the flag started out different. */
  lemma {:induction false} TrackStable(available: bool, ticksOk: seq<bool>, ok: bool)
    requires forall i :: 0 <= i < |ticksOk| ==> ticksOk[i] == ok
    ensures Track(available, ticksOk).announced == (if |ticksOk| == 0 || available == ok then [] else [ok])
    decreases |ticksOk|
  {
    if |ticksOk| > 0 {
      TrackStable(ticksOk[0], ticksOk[1..], ok);
    }
  }
}

=== FILE: metrics.dfy ===
/** The metrics gateway: the Prometheus-style exposition parser and the
    lookup of the two readings the heater policy needs. */
module Metrics {
  import opened Outcomes
  import Text

  /** `str::parse::<f32>()`, left uninterpreted: the value of the parsed
      float, or None for text that is not a float. */
  type F32Parse = string -> Option<real>

  /** One reading of the room: temperature and the CO2 level as an `i32`. */
  datatype Reading = Reading(temperature: real, co2: int)

  const TemperatureKey := "temperature"
  const Co2Key := "co2"

  /** Only a line whose very first character is `#` is a comment. */
  predicate IsComment(line: string) {
    |line| > 0 && line[0] == '#'
  }

  /** The two pieces of `line.split(' ')`, when there are exactly two. */
  function PairOf(line: string): Option<(string, string)>
  {
    var pieces := Text.Split(line, ' ');
    if |pieces| == 2 then Some((pieces[0], pieces[1])) else None
  }

  /** The `(name, value)` entry one line of the exposition contributes. */
  function Entry(line: string): Option<(string, string)>
  {
    if IsComment(line) then None else PairOf(line)
  }

  /** A line contributes `(key, value)` exactly when it is not a comment and
      is `key`, one space, `value`, with no further space anywhere. */
  lemma EntryShape(line: string, key: string, value: string)
    ensures Entry(line) == Some((key, value))
        <==> !IsComment(line) && line == key + " " + value && ' ' !in key && ' ' !in value
  {
    Text.SplitTwoPieces(line, ' ', key, value);
    var pieces := Text.Split(line, ' ');
    if |pieces| == 2 && pieces[0] == key && pieces[1] == value {
      assert pieces == [key, value];
    }
  }

  /** A well-formed exposition line gives its name and value. */
  lemma EntryPlainLine()
    ensures Entry("co2 512") == Some(("co2", "512"))
  {
    assert "co2" + [' '] + "512" == "co2 512";
    Text.SplitAtSingleSeparator("co2", "512", ' ');
  }

  /** A trailing space after one piece gives an empty value. */
  lemma EntryTrailingSpace()
    ensures Entry("a ") == Some(("a", ""))
  {
    assert "a" + [' '] + "" == "a ";
    Text.SplitAtSingleSeparator("a", "", ' ');
  }

  /** A `#` after a leading space does not make a comment: the key is empty. */
  lemma EntryLeadingSpace()
    ensures Entry(" #x") == Some(("", "#x"))
  {
    assert "" + [' '] + "#x" == " #x";
    Text.SplitAtSingleSeparator("", "#x", ' ');
  }

  /** A comment line adds nothing, even when it has the shape of an entry. */
  lemma EntryCommentDropped()
    ensures Entry("#a b") == None
  {
    assert IsComment("#a b");
  }

  /** A trailing space after two pieces makes three pieces, so no entry. */
  lemma EntryThreePiecesDropped()
    ensures Entry("a b ") == None
  {
    assert "a" + [' '] + "b " == "a b ";
    assert "b" + [' '] + "" == "b ";
    Text.SplitCons("a", "b ", ' ');
    Text.SplitCons("b", "", ' ');
  }

  /** A line without a space is one piece, so no entry. */
  lemma EntryOnePieceDropped()
    ensures Entry("temperature") == None
  {
    Text.IndexOfAbsent("temperature", ' ');
  }

  /** Whether `line` contributes an entry for `key`. */
  predicate HasKey(line: string, key: string) {
    Entry(line).Some? && Entry(line).value.0 == key
  }

  /** `.collect()` of the entries into a map, in line order, so that a later
      entry for a key overwrites an earlier one. */
  function Collect(lines: seq<string>): map<string, string>
    decreases |lines|
  {
    if |lines| == 0 then map[]
    else
      var m := Collect(lines[..|lines| - 1]);
      match Entry(lines[|lines| - 1])
      case None => m
      case Some(kv) => m[kv.0 := kv.1]
  }

  /** The exposition text parsed into a name-to-value map. */
  function ParseMetrics(text: string): map<string, string>
  {
    Collect(Text.Lines(text))
  }

  /** A key is in the map exactly when some line contributes an entry for it. */
  lemma {:induction false} CollectKeys(lines: seq<string>, key: string)
    ensures key in Collect(lines) <==> exists i :: 0 <= i < |lines| && HasKey(lines[i], key)
    decreases |lines|
  {
    if |lines| > 0 {
      var init, last := lines[..|lines| - 1], lines[|lines| - 1];
      assert key in Collect(lines) <==> key in Collect(init) || HasKey(last, key);
      CollectKeys(init, key);
      if exists i :: 0 <= i < |init| && HasKey(init[i], key) {
        var i :| 0 <= i < |init| && HasKey(init[i], key);
        assert lines[i] == init[i];
      }
      if exists i :: 0 <= i < |lines| && HasKey(lines[i], key) {
        var i :| 0 <= i < |lines| && HasKey(lines[i], key);
        if i < |init| {
          assert init[i] == lines[i];
        }
      }
    }
  }

  /** Line `i` contributes an entry whose key no later line carries. */
  predicate LastEntry(lines: seq<string>, i: int) {
    && 0 <= i < |lines|
    && Entry(lines[i]).Some?
    && forall j :: i < j < |lines| ==> !HasKey(lines[j], Entry(lines[i]).value.0)
  }

  /** The value of a key is the one on the last line that carries the key. */
  lemma {:induction false} CollectLastWins(lines: seq<string>, i: nat)
    requires i < |lines| && Entry(lines[i]).Some?
    requires forall j :: i < j < |lines| ==> !HasKey(lines[j], Entry(lines[i]).value.0)
    ensures Entry(lines[i]).value.0 in Collect(lines)
    ensures Collect(lines)[Entry(lines[i]).value.0] == Entry(lines[i]).value.1
    decreases |lines|
  {
    var init := lines[..|lines| - 1];
    if i < |lines| - 1 {
      assert init[i] == lines[i];
      CollectLastWins(init, i);
    }
  }

  /** `get_metrics`: a failed request or body read is an error; otherwise
      the body is parsed. */
  function GetMetrics(resp: HttpText): (r: Result<map<string, string>, Failure>)
    ensures r.Err? <==> !resp.Body?
    ensures r.Err? ==> r.error == Transport
    ensures r.Ok? ==> r.value == ParseMetrics(resp.text)
    ensures r.Ok? ==> forall key :: key in r.value <==> exists i :: 0 <= i < |Text.Lines(resp.text)| && HasKey(Text.Lines(resp.text)[i], key)
    ensures r.Ok? ==> forall i :: LastEntry(Text.Lines(resp.text), i) ==>
      var kv := Entry(Text.Lines(resp.text)[i]).value;
      kv.0 in r.value && r.value[kv.0] == kv.1
  {
    match resp
    case Body(text) =>
      var m := ParseMetrics(text);
      assert forall key :: key in m <==> exists i :: 0 <= i < |Text.Lines(text)| && HasKey(Text.Lines(text)[i], key) by {
        forall key ensures key in m <==> exists i :: 0 <= i < |Text.Lines(text)| && HasKey(Text.Lines(text)[i], key) {
          CollectKeys(Text.Lines(text), key);
        }
      }
      assert forall i :: LastEntry(Text.Lines(text), i) ==>
        var kv := Entry(Text.Lines(text)[i]).value;
        kv.0 in m && m[kv.0] == kv.1
      by {
        forall i | LastEntry(Text.Lines(text), i) {
          CollectLastWins(Text.Lines(text), i);
        }
      }
      Ok(m)
    case _ => Err(Transport)
  }

  const I32Min: int := -0x8000_0000
  const I32Max: int := 0x7FFF_FFFF

  /** Rust's `x as i32` on a float: rounds toward zero and saturates at the
      bounds of `i32`. */
  function AsI32(x: real): (n: int)
    ensures I32Min <= n <= I32Max
    ensures 0.0 <= x ==> n as real <= x
    ensures x <= 0.0 ==> x <= n as real
    ensures (I32Min - 1) as real < x < (I32Max + 1) as real ==> x - 1.0 < n as real < x + 1.0
    ensures x >= I32Max as real ==> n == I32Max
    ensures x <= I32Min as real ==> n == I32Min
  {
    var t := if x >= 0.0 then x.Floor else -((-x).Floor);
    if t < I32Min then I32Min else if t > I32Max then I32Max else t
  }

  /** The cases in which `get_temp_and_co2` does not panic: the body, when it
      arrives, carries a `temperature` entry, and a `co2` entry too once the
      temperature has parsed (each lookup is `unwrap`ped). */
  predicate TempAndCo2Defined(resp: HttpText, parse: F32Parse) {
    resp.Body? ==>
      var m := ParseMetrics(resp.text);
      TemperatureKey in m && (parse(m[TemperatureKey]).Some? ==> Co2Key in m)
  }

  /** `get_temp_and_co2`: both readings from one fetch of the metrics. The
      temperature is parsed first, so its failure is the one reported. */
  function GetTempAndCo2(resp: HttpText, parse: F32Parse): (r: Result<Reading, Failure>)
    requires TempAndCo2Defined(resp, parse)
    ensures !resp.Body? ==> r == Err(Transport)
    ensures resp.Body? ==>
      var m := ParseMetrics(resp.text);
      && (r.Ok? <==> parse(m[TemperatureKey]).Some? && parse(m[Co2Key]).Some?)
      && (parse(m[TemperatureKey]).None? ==> r == Err(BadNumber(m[TemperatureKey])))
      && (parse(m[TemperatureKey]).Some? && parse(m[Co2Key]).None? ==> r == Err(BadNumber(m[Co2Key])))
      && (r.Ok? ==> parse(m[TemperatureKey]) == Some(r.value.temperature))
      && (r.Ok? ==> r.value.co2 == AsI32(parse(m[Co2Key]).value))
  {
    match GetMetrics(resp)
    case Err(e) => Err(e)
    case Ok(m) =>
      match parse(m[TemperatureKey])
      case None => Err(BadNumber(m[TemperatureKey]))
      case Some(temperature) =>
        match parse(m[Co2Key])
        case None => Err(BadNumber(m[Co2Key]))
        case Some(co2) => Ok(Reading(temperature, AsI32(co2)))
  }
}

=== FILE: outcomes.dfy ===
/** Value and failure carriers shared by every part of the controller model,
    and the abstract outcomes of the network calls the controller issues. */
module Outcomes {

  /** Rust's `Option`. */
  datatype Option<+T> = None | Some(value: T) {

    /** `unwrap_or`: the carried value, or `default` when there is none. */
    function UnwrapOr(default: T): T {
      match this
      case Some(v) => v
      case None => default
    }
  }

  /** Rust's `Result`. */
  datatype Result<+T, +E> = Ok(value: T) | Err(error: E)

  /** What can go wrong in the controller, collapsed to the distinctions the
      control loop and the HTTP handlers make. */
  datatype Failure =
    | Transport               // a reqwest error: connection, body read or JSON decoding
    | BadNumber(text: string) // a metric value that does not parse as a float
    | PingFailed              // a ping error other than an I/O error (timeout)
    | WriteFailed             // writing the configuration file failed

  /** The outcome of `reqwest::get(url)` followed by `.text()`: the request
      itself can fail, reading the body can fail, or the body arrives. */
  datatype HttpText = RequestFailed | BodyFailed | Body(text: string)
}

=== FILE: pc.dfy ===
/** The presence probe: whether the companion PC answers a ping, and whether
    its lock-status server reports it locked. */
module Pc {
  import opened Outcomes

  /** The PC's fixed address on the local network. */
  const PcIp := "192.168.178.89"

  /** The lock-status server on the PC. */
  const WinLockEndpoint := "http://" + PcIp + ":26969/"

  lemma WinLockEndpointValue()
    ensures WinLockEndpoint == "http://192.168.178.89:26969/"
  {
  }

  /** The outcome of one ping with a one-second timeout: a reply, an I/O
      error (what a timeout surfaces as), or any other ping error. */
  datatype PingOutcome = Reply | IoError | OtherError

  /** `pc::is_on`: a reply means on, a timeout means off, and only an
      unexpected ping error is an error. */
  function IsOn(ping: PingOutcome): (r: Result<bool, Failure>)
    ensures r.Err? <==> ping == OtherError
    ensures r.Err? ==> r.error == PingFailed
    ensures r.Ok? ==> (r.value <==> ping == Reply)
  {
    match ping
    case Reply => Ok(true)
    case IoError => Ok(false)
    case OtherError => Err(PingFailed)
  }

  /** The `tristate` crate's `TriState`: `Yes`, `No`, or `Unknown`. */
  datatype TriState = Yes | No | Unknown {

    /** `to_bool`: the definite answer, if there is one. */
    function ToBool(): Option<bool> {
      match this
      case Yes => Some(true)
      case No => Some(false)
      case Unknown => None
    }
  }

  /** `TriState::from(bool)`: always a definite answer, and the same one back. */
  function FromBool(b: bool): (t: TriState)
    ensures t.ToBool() == Some(b)
    ensures t != Unknown
  {
    if b then Yes else No
  }

  /** `pc::is_locked`: `Yes` when the lock server answers exactly `"1"`,
      `No` for any other body, `Unknown` when the request or the body read
      fails. It never fails its caller. */
  function IsLocked(resp: HttpText): (t: TriState)
    ensures t == Unknown <==> !resp.Body?
    ensures t == Yes <==> resp.Body? && resp.text == "1"
    ensures t == No <==> resp.Body? && resp.text != "1"
  {
    match resp
    case Body(text) => FromBool(text == "1")
    case _ => Unknown
  }

  /** Only the exact body `"1"` means locked: a newline after it, `"0"` and
      the empty body all mean unlocked. */
  lemma IsLockedExamples()
    ensures IsLocked(Body("1")) == Yes
    ensures IsLocked(Body("0")) == No
    ensures IsLocked(Body("")) == No
    ensures IsLocked(Body("1\n")) == No
    ensures IsLocked(RequestFailed) == Unknown
    ensures IsLocked(BodyFailed) == Unknown
  {
    assert "1\n" != "1" by {
      assert |"1\n"| == 2;
    }
  }
}

=== FILE: server.dfy ===
/** The configuration API of the earlier server revision in `main.rs`: its
    configuration record, the start-up default, the GET and PATCH handlers,
    and its own copy of the metrics parser. This revision has no heater
    manager; its CO2 target is a plain `i32`. */
module Server {
  import opened Outcomes
  import Text
  import Metrics
  import Heater

  /** This revision's settings record. */
  datatype Config = Config(masterSwitch: bool, force: bool, targetTemp: real, co2Target: int)

  /** `Config::default`. */
  const DefaultConfig := Config(true, false, 28.0, 500)

  /** The configuration the server starts with: the one decoded from the
      configuration file if there is one, the default otherwise. */
  function InitialConfig(stored: Option<Config>): (c: Config)
    ensures stored.Some? ==> c == stored.value
    ensures stored.None? ==> c.masterSwitch && !c.force && c.targetTemp == 28.0 && c.co2Target == 500
  {
    stored.UnwrapOr(DefaultConfig)
  }

  /** This copy tests for comments with the string prefix `"#"` rather
      than the character `'#'`; it splits on `" "`, which cuts exactly where
      `' '` does. */
  function EntryV1(line: string): Option<(string, string)>
  {
    if "#" <= line then None else Metrics.PairOf(line)
  }

  /** The two comment tests agree on every line, so the two line rules do. */
  lemma EntryV1Agrees(line: string)
    ensures EntryV1(line) == Metrics.Entry(line)
  {
    if |line| > 0 && line[0] == '#' {
      assert line[..1] == "#";
    }
  }

  function CollectV1(lines: seq<string>): map<string, string>
    decreases |lines|
  {
    if |lines| == 0 then map[]
    else
      var m := CollectV1(lines[..|lines| - 1]);
      match EntryV1(lines[|lines| - 1])
      case None => m
      case Some(kv) => m[kv.0 := kv.1]
  }

  /** This revision's `get_metrics` parser. */
  function ParseMetrics(text: string): map<string, string>
  {
    CollectV1(Text.Lines(text))
  }

  /** The duplicated parser builds the same map as the metrics module's. */
  lemma {:induction false} CollectV1Agrees(lines: seq<string>)
    ensures CollectV1(lines) == Metrics.Collect(lines)
    decreases |lines|
  {
    if |lines| > 0 {
      CollectV1Agrees(lines[..|lines| - 1]);
      EntryV1Agrees(lines[|lines| - 1]);
    }
  }

  lemma ParsersAgree(text: string)
    ensures ParseMetrics(text) == Metrics.ParseMetrics(text)
  {
    CollectV1Agrees(Text.Lines(text));
  }

  /** What `GET /` and `PATCH /` answer with. */
  datatype StateResponse = StateResponse(config: Option<Config>, temperature: real, co2: int, isHeating: bool)

  /** The cases in which `send_config_and_state` does not panic: once the
      metrics arrive, both readings are present and parse (each is
      `unwrap`ped), and a decoded plug status has its output field. */
  predicate SendDefined(metrics: HttpText, parse: Metrics.F32Parse, status: Heater.StatusReply) {
    metrics.Body? ==>
      var m := ParseMetrics(metrics.text);
      && Metrics.TemperatureKey in m && parse(m[Metrics.TemperatureKey]).Some?
      && Metrics.Co2Key in m && parse(m[Metrics.Co2Key]).Some?
      && Heater.IsOnDefined(status)
  }

  /** `send_config_and_state`: the readings and the plug state, with the
      configuration when one is passed. Only a failed request or an
      undecodable status makes it an error. */
  function SendConfigAndState(config: Option<Config>, metrics: HttpText, parse: Metrics.F32Parse,
                              status: Heater.StatusReply): (r: Result<StateResponse, Failure>)
    requires SendDefined(metrics, parse, status)
    ensures r.Ok? <==> metrics.Body? && status.Status?
    ensures r.Err? ==> r.error == Transport
    ensures r.Ok? ==> r.value.config == config
    ensures r.Ok? ==>
      var m := ParseMetrics(metrics.text);
      && parse(m[Metrics.TemperatureKey]) == Some(r.value.temperature)
      && r.value.co2 == Metrics.AsI32(parse(m[Metrics.Co2Key]).value)
      && Heater.IsOn(status) == Ok(r.value.isHeating)
  {
    if !metrics.Body? then
      Err(Transport)
    else
      var m := ParseMetrics(metrics.text);
      var temperature := parse(m[Metrics.TemperatureKey]).value;
      var co2 := Metrics.AsI32(parse(m[Metrics.Co2Key]).value);
      match Heater.IsOn(status)
      case Err(e) => Err(e)
      case Ok(isHeating) => Ok(StateResponse(config, temperature, co2, isHeating))
  }

  /** `GET /`: the configuration is included only when `include_config` is
      present and true; an absent parameter means false. */
  function GetConfigAndState(current: Config, includeConfig: Option<bool>, metrics: HttpText,
                             parse: Metrics.F32Parse, status: Heater.StatusReply): (r: Result<StateResponse, Failure>)
    requires SendDefined(metrics, parse, status)
    ensures r.Ok? <==> metrics.Body? && status.Status?
    ensures r.Ok? ==> (r.value.config.Some? <==> includeConfig == Some(true))
    ensures r.Ok? && r.value.config.Some? ==> r.value.config.value == current
  {
    SendConfigAndState(if includeConfig.UnwrapOr(false) then Some(current) else None, metrics, parse, status)
  }

  /** The configuration held after a PATCH and the response to it. */
  datatype Patched = Patched(config: Config, response: Result<StateResponse, Failure>)

  /** `PATCH /`: the request body is written to the configuration file
      first; only once that succeeds does it replace the configuration, and
      the response then always carries the new configuration. A failed write
      leaves the configuration as it was. */
  function PatchConfig(current: Config, newConfig: Config, persisted: bool, metrics: HttpText,
                       parse: Metrics.F32Parse, status: Heater.StatusReply): (p: Patched)
    requires persisted ==> SendDefined(metrics, parse, status)
    ensures persisted ==> p.config == newConfig
    ensures !persisted ==> p.config == current && p.response == Err(WriteFailed)
    ensures p.response.Ok? ==> p.response.value.config == Some(newConfig)
    ensures persisted ==> (p.response.Ok? <==> metrics.Body? && status.Status?)
  {
    if !persisted then
      Patched(current, Err(WriteFailed))
    else
      Patched(newConfig, SendConfigAndState(Some(newConfig), metrics, parse, status))
  }

  /** A successful PATCH is what a following `GET /?include_config=true`
      reports, whatever the PATCH response was. */
  lemma PatchThenGet(current: Config, newConfig: Config, metrics: HttpText, parse: Metrics.F32Parse,
                     status: Heater.StatusReply, metrics2: HttpText, status2: Heater.StatusReply)
    requires SendDefined(metrics, parse, status)
    requires SendDefined(metrics2, parse, status2)
    requires metrics2.Body? && status2.Status?
    ensures var after := PatchConfig(current, newConfig, true, metrics, parse, status).config;
      GetConfigAndState(after, Some(true), metrics2, parse, status2).Ok?
      && GetConfigAndState(after, Some(true), metrics2, parse, status2).value.config == Some(newConfig)
  {
  }
}

=== FILE: text.dfy ===
/** The two pieces of Rust string handling the metrics parsers rely on:
    `str::split` on a single character and `str::lines`. */
module Text {

  /** Position of the first `c` in `s`, or `|s|` when `s` has none. */
  function IndexOf(s: string, c: char): (i: nat)
    ensures i <= |s|
    ensures i < |s| ==> s[i] == c
    ensures forall j :: 0 <= j < i ==> s[j] != c
  {
    if |s| == 0 then 0
    else if s[0] == c then 0
    else 1 + IndexOf(s[1..], c)
  }

  /** The first occurrence is the only position that is `c` with no `c` before it. */
  lemma IndexOfUnique(s: string, c: char, i: nat)
    requires i < |s| && s[i] == c
    requires forall j :: 0 <= j < i ==> s[j] != c
    ensures IndexOf(s, c) == i
  {
  }

  /** Pieces glued back together with `c` between consecutive pieces. */
  function Join(pieces: seq<string>, c: char): string
  {
    if |pieces| == 0 then ""
    else if |pieces| == 1 then pieces[0]
    else pieces[0] + [c] + Join(pieces[1..], c)
  }

  /** `s.split(c)`: the maximal runs between occurrences of `c`. An empty
      string and a string without `c` both give one piece; every `c` adds a
      piece, so leading, trailing or doubled separators give empty pieces. */
  function Split(s: string, c: char): (pieces: seq<string>)
    ensures |pieces| >= 1
    ensures forall k :: 0 <= k < |pieces| ==> c !in pieces[k]
    ensures Join(pieces, c) == s
    decreases |s|
  {
    var i := IndexOf(s, c);
    if i == |s| then
      [s]
    else
      var rest := Split(s[i + 1..], c);
      assert c !in s[..i] by {
        forall j | 0 <= j < i ensures s[..i][j] != c { }
      }
      assert s == s[..i] + [c] + s[i + 1..];
      [s[..i]] + rest
  }

  /** The text before the first separator is the first piece. */
  lemma SplitCons(left: string, right: string, c: char)
    requires c !in left
    ensures Split(left + [c] + right, c) == [left] + Split(right, c)
  {
    var s := left + [c] + right;
    assert forall j :: 0 <= j < |left| ==> s[j] == left[j];
    IndexOfUnique(s, c, |left|);
    assert s[..|left|] == left;
    assert s[|left| + 1..] == right;
  }

  /** A string cut at its single separator splits into exactly the two sides. */
  lemma SplitAtSingleSeparator(left: string, right: string, c: char)
    requires c !in left && c !in right
    ensures Split(left + [c] + right, c) == [left, right]
  {
    SplitCons(left, right, c);
    IndexOfAbsent(right, c);
  }

  /** Without `c` there is nothing to split. */
  lemma IndexOfAbsent(s: string, c: char)
    requires c !in s
    ensures IndexOf(s, c) == |s|
    ensures Split(s, c) == [s]
  {
  }

  /** `s.split(c)` has exactly two pieces precisely when `s` is two
      `c`-free strings around a single `c`, and the pieces are those strings. */
  lemma {:induction false} SplitTwoPieces(s: string, c: char, left: string, right: string)
    ensures Split(s, c) == [left, right] <==> (s == left + [c] + right && c !in left && c !in right)
  {
    if Split(s, c) == [left, right] {
      var pieces := Split(s, c);
      assert pieces[1..] == [right];
      assert Join(pieces, c) == left + [c] + right;
    }
    if s == left + [c] + right && c !in left && c !in right {
      SplitAtSingleSeparator(left, right, c);
    }
  }

  predicate EndsWithCr(line: string) {
    |line| > 0 && line[|line| - 1] == '\r'
  }

  /** Removes the `'\r'` of a `"\r\n"` line ending. */
  function StripCr(line: string): (r: string)
    ensures EndsWithCr(line) ==> line == r + "\r"
    ensures !EndsWithCr(line) ==> r == line
  {
    if EndsWithCr(line) then line[..|line| - 1] else line
  }

  /** `s.lines()`: the text cut at every `'\n'`, with a `'\r'` right before
      the `'\n'` dropped too. A final line ending is optional and does not
      open an empty last line; an empty text has no lines. */
  function Lines(s: string): seq<string>
    decreases |s|
  {
    if |s| == 0 then []
    else
      var i := IndexOf(s, '\n');
      if i == |s| then [s] else [StripCr(s[..i])] + Lines(s[i + 1..])
  }

  /** No line `lines()` gives contains a `'\n'`. */
  lemma {:induction false} LinesHaveNoNewline(s: string)
    ensures forall k :: 0 <= k < |Lines(s)| ==> '\n' !in Lines(s)[k]
    decreases |s|
  {
    if |s| > 0 {
      var i := IndexOf(s, '\n');
      if i < |s| {
        var head, rest := s[..i], s[i + 1..];
        LinesHaveNoNewline(rest);
        var first := StripCr(head);
        assert '\n' !in first by {
          forall j | 0 <= j < |first| ensures first[j] != '\n' {
            assert first[j] == head[j] == s[j];
          }
        }
        assert Lines(s) == [first] + Lines(rest);
      } else {
        assert Lines(s) == [s];
      }
    }
  }

  /** Every line followed by `"\n"`. */
  function Unlines(ls: seq<string>): string
  {
    if |ls| == 0 then "" else ls[0] + "\n" + Unlines(ls[1..])
  }

  /** A line ended by `"\n"` is cut off the front of the text unchanged. */
  lemma LinesCons(line: string, rest: string, s: string)
    requires '\n' !in line && !EndsWithCr(line)
    requires s == line + "\n" + rest
    ensures Lines(s) == [line] + Lines(rest)
  {
    assert forall j :: 0 <= j < |line| ==> s[j] == line[j];
    IndexOfUnique(s, '\n', |line|);
    assert s[..|line|] == line;
    assert s[|line| + 1..] == rest;
  }

  lemma UnlinesCons(line: string, more: seq<string>, tail: string)
    ensures Unlines([line] + more) + tail == line + "\n" + (Unlines(more) + tail)
  {
    assert ([line] + more)[1..] == more;
  }

  /** `LinesOfUnlines` for a text `s` known only through its shape, which
      keeps the solver from unfolding `lines()` over the concatenation. */
  lemma {:induction false} LinesOfUnlinesAt(ls: seq<string>, tail: string, s: string)
    requires forall k :: 0 <= k < |ls| ==> '\n' !in ls[k] && !EndsWithCr(ls[k])
    requires '\n' !in tail
    requires s == Unlines(ls) + tail
    ensures Lines(s) == ls + (if tail == "" then [] else [tail])
    decreases |ls|
  {
    var last: seq<string> := if tail == "" then [] else [tail];
    if |ls| == 0 {
      assert s == tail;
      if tail != "" {
        IndexOfAbsent(tail, '\n');
      }
    } else {
      var rest := Unlines(ls[1..]) + tail;
      UnlinesCons(ls[0], ls[1..], tail);
      assert [ls[0]] + ls[1..] == ls;
      LinesOfUnlinesAt(ls[1..], tail, rest);
      LinesCons(ls[0], rest, s);
      assert [ls[0]] + (ls[1..] + last) == ls + last;
    }
  }

  /** `lines()` undoes `Unlines`, and an unterminated last line is kept as
      it is (a final `'\r'` included, since no `'\n'` follows it). */
  lemma LinesOfUnlines(ls: seq<string>, tail: string)
    requires forall k :: 0 <= k < |ls| ==> '\n' !in ls[k] && !EndsWithCr(ls[k])
    requires '\n' !in tail
    ensures Lines(Unlines(ls) + tail) == ls + (if tail == "" then [] else [tail])
  {
    LinesOfUnlinesAt(ls, tail, Unlines(ls) + tail);
  }

  /** A `"\r\n"` ending is removed whole: the line keeps no `'\r'` of it. */
  lemma CrLfEnding(line: string, rest: string)
    requires '\n' !in line
    ensures Lines(line + "\r\n" + rest) == [line] + Lines(rest)
  {
    var s := line + "\r\n" + rest;
    assert forall j :: 0 <= j < |line| ==> s[j] == line[j];
    assert s[|line|] == '\r';
    IndexOfUnique(s, '\n', |line| + 1);
    assert s[..|line| + 1] == line + "\r";
    assert s[|line| + 2..] == rest;
  }
}
